=== FILE: README.md ===
# ProcesaCores — a Dafny model of the payment-processing core

The service takes one payment transaction and drives it through two remote
operations of a banking core: a debit of the card, then a credit of the
merchant account. Around that decision logic sit a Feign retryer, a Feign
error decoder and a REST controller. This project models these five pieces
as immutable datatypes and pure functions and proves their properties:

- `ProcesarCoreService` (procesar_core_service.dfy) is the two-leg orchestrator.
  It translates the inbound transaction into the two requests, calls the
  client and validates each answer. Every failure path becomes one "RECHAZADO" result.
  The Feign client is an oracle: each leg's outcome is an input
  (`Threw(message) | NullBody | Body(dto)`), and the function returns the
  result together with the trace of remote calls made. A null
  `ResponseEntity` is dereferenced inside the leg's `try`, before it is
  validated, so it arrives as `Threw`.
- `ProcesaCoresService` (procesa_cores_service.dfy) is the alternate orchestrator.
  It has its own code table (00 / 51 / 05 / 96 with APROBADA / RECHAZADA / ERROR).
  Each leg's input is `Threw` or `Reply(statusOk, body-or-null)`. An OK status with
  a null body is the null dereference that lands in the ERROR branch.
  `retrieve()` turns a 4xx or 5xx answer into an exception, so a core's HTTP
  refusal is `Threw` and ends in ERROR / 96; a status that is not OK means a
  2xx other than 200 or a redirect.
- `CoreClientRetryer` (core_client_retryer.dfy) is the retry policy as a counter
  state machine over `{attempt, maxAttempts, backoff}`. The counter is a Java
  `int` and the backoff a Java `long`, and both wrap explicitly. One step returns
  `Sleep(millis)`, `Propagate(interruptRestored)` or `NegativeSleep(millis)`
  (the IllegalArgumentException `Thread.sleep` throws for a negative delay),
  together with the new state.
- `CoreClientErrorDecoder` (core_client_error_decoder.dfy) classifies an HTTP
  status. A 4xx status becomes a `CoreProcessingException` with code
  "ERROR-<status>". Any other status is handed to Feign's default decoder.
- `ProcesarCoreController` (procesar_core_controller.dfy) maps (transaction,
  service outcome) to (HTTP status, body). It covers the amount check, the
  four catch branches (two of `/procesar`, one of each single-leg endpoint),
  `determinarRespuestaHttp` and the two single-leg endpoints.
- `CoreExceptions` (core_exceptions.dfy) is the exception union: `CoreProcessing(message,
  errorCode, cause)` or any other exception. `Dto` (dto.dfy) holds the records,
  `Common` holds Java nulls (`Option`), the rendering of null as "null" in
  string concatenation, and a substring relation. `Decimal` holds the
  rendering of an `int` as decimal digits.

What the proofs bring out when the pieces are put together (`Composition`):

- The orchestrator only ever answers "APROBADO" or "RECHAZADO".
- The controller only tests for "ERROR" and "RECHAZADA".
- So every orchestrator result with a valid amount is sent with HTTP 200, rejections included.
- The alternate orchestrator uses exactly the controller's vocabulary, so its
  results map to 200 / 422 / 500.
- `clone()` creates an instance through the no-argument constructor.
  Nothing is injected into it, so its limit is 0 and it propagates on the first call.
  If the retryer is registered with the client, Feign works with such a clone
  on every request, so no call is ever retried. No Java class registers it:
  the class carries no component annotation and the client declaration
  (CoreBancarioClient.java:12) names no configuration. A client property in
  the application's configuration file could still register it; that file
  is not part of this model.
- The error decoder is in the same position. If it is registered with the
  client, a 4xx answer reaches the orchestrator as a CoreProcessingException.
  No Java class registers it, for the same two reasons; otherwise Feign's
  default decoder throws its own exception instead.

Where the code and its own tests disagree, the model follows the code:

- IntegracionCoreBancarioTest.java:107 expects "APROBADA" from a successful
  run, and IntegracionCoreBancarioTest.java:150 expects HTTP 422 for a
  rejected debit. The orchestrator answers "APROBADO", and a rejection is sent with 200.

Other facts about the code that the model states:

- No code reverses a debit after a failed credit.
- The retryer waits `backoff * attempt` after incrementing the counter, so
  its first wait is twice the backoff.

## Model

| member | source | states |
|---|---|---|
| CoreExceptions.NewCoreProcessing | src/main/java/com/banquito/paymentprocessor/procesarcores/banquito/exception/CoreProcessingException.java:18-20 | keeps the message unchanged; the error code is null and there is no cause |
| CoreExceptions.NewCoreProcessingWithCode | src/main/java/com/banquito/paymentprocessor/procesarcores/banquito/exception/CoreProcessingException.java:28-31 | keeps the message; `getErrorCode` returns exactly the code given |
| CoreExceptions.NewCoreProcessingWithCause | src/main/java/com/banquito/paymentprocessor/procesarcores/banquito/exception/CoreProcessingException.java:39-41 | keeps the message and records the cause, which may be null; the error code is null |
| CoreExceptions.ErrorCodeOnlyFromCodeConstructor | src/main/java/com/banquito/paymentprocessor/procesarcores/banquito/exception/CoreProcessingException.java:18-50 | through the getters: `getErrorCode` is non-null only for the (message, errorCode) constructor given a non-null code; the (message, cause) constructor with a null cause is indistinguishable from the message-only one |
| CoreClientErrorDecoder.Decode | src/main/java/com/banquito/paymentprocessor/procesarcores/banquito/config/CoreClientErrorDecoder.java:17-25 | a domain exception is produced if and only if 400 <= status <= 499; its message is "Error en la llamada al core bancario: " + reason and its code is "ERROR-" + the decimal status; every other status goes unchanged to the default decoder |
| CoreClientErrorDecoder.MethodKeyIgnoredForClientErrors | src/main/java/com/banquito/paymentprocessor/procesarcores/banquito/config/CoreClientErrorDecoder.java:17-24 | in the 4xx branch the result does not depend on the method key |
| CoreClientErrorDecoder.ErrorCodeSpellsStatus | src/main/java/com/banquito/paymentprocessor/procesarcores/banquito/config/CoreClientErrorDecoder.java:22 | the code is "ERROR-" followed by exactly three digits, and those digits read back as the status |
| CoreClientErrorDecoder.ErrorCodeDeterminesStatus | src/main/java/com/banquito/paymentprocessor/procesarcores/banquito/config/CoreClientErrorDecoder.java:22 | two 4xx answers decoded to the same error code had the same status |
| Decimal.DecimalRoundTrip | src/main/java/com/banquito/paymentprocessor/procesarcores/banquito/config/CoreClientErrorDecoder.java:22 | reading back the decimal rendering of a non-negative int gives the int |
| CoreClientRetryer.Configured | src/main/java/com/banquito/paymentprocessor/procesarcores/banquito/config/CoreClientRetryer.java:14-20 | a fresh instance starts with attempt = 1 and the injected limit and backoff |
| CoreClientRetryer.Clone | src/main/java/com/banquito/paymentprocessor/procesarcores/banquito/config/CoreClientRetryer.java:38-41 | the clone has attempt 1; its limit and backoff are Java's zero defaults, whatever the original held |
| CoreClientRetryer.ContinueOrPropagate | src/main/java/com/banquito/paymentprocessor/procesarcores/banquito/config/CoreClientRetryer.java:23-36 | the counter is incremented (32-bit wrap) on every call, the propagating one included; the call propagates exactly when the old counter is >= the limit; otherwise the requested delay is backoff times the new counter (64-bit wrap); a negative delay fails in the sleep; an interrupted sleep rethrows and restores the interrupt flag |
| CoreClientRetryer.StepBelowLimit | src/main/java/com/banquito/paymentprocessor/procesarcores/banquito/config/CoreClientRetryer.java:24-31 | below the limit, with a non-negative counter and backoff and when no overflow happens, one uninterrupted call sleeps backoff * (attempt + 1) and moves the counter up by one |
| CoreClientRetryer.RunBelowLimit | src/main/java/com/banquito/paymentprocessor/procesarcores/banquito/config/CoreClientRetryer.java:24-31 | with a non-negative counter and backoff, n calls that stay below the limit all sleep, the k-th for backoff times the incremented counter, so the delays grow linearly |
| CoreClientRetryer.ConfiguredAttemptsExactly | src/main/java/com/banquito/paymentprocessor/procesarcores/banquito/config/CoreClientRetryer.java:20-31 | from a fresh instance with limit m >= 1, calls 1..m-1 return normally, the k-th after backoff * (k + 1) (so the first wait is twice the backoff), and call m propagates: m attempts in all |
| CoreClientRetryer.SmallLimitPropagatesAtOnce | src/main/java/com/banquito/paymentprocessor/procesarcores/banquito/config/CoreClientRetryer.java:20-27 | with a limit of one or less the first call propagates |
| CoreClientRetryer.PropagationIsSticky | src/main/java/com/banquito/paymentprocessor/procesarcores/banquito/config/CoreClientRetryer.java:24-27 | once the counter has reached the limit every later call propagates and the counter keeps growing, as long as it does not pass the largest int |
| CoreClientRetryer.CounterWrapEndsPropagation | src/main/java/com/banquito/paymentprocessor/procesarcores/banquito/config/CoreClientRetryer.java:24 | at the largest int the call propagates and the increment wraps to the smallest int; the next call no longer propagates: with zero backoff it sleeps, with a positive backoff up to the largest int the delay is negative and Thread.sleep throws |
| CoreClientRetryer.ClonedRetryerNeverRetries | src/main/java/com/banquito/paymentprocessor/procesarcores/banquito/config/CoreClientRetryer.java:38-41 | the first call on a clone propagates, whatever the original was configured with |
| ProcesarCoreService.ConvertirATarjetaRequest | src/main/java/com/banquito/paymentprocessor/procesarcores/banquito/service/ProcesarCoreService.java:126-147 | "COM" / "USD" / "EC" replace `tipo` / `moneda` / `pais` only when null; `diferido` holds exactly when the months are present and positive; `cuotas` defaults to 1; amount, SWIFT, card number, unique code, reference and encrypted payload are copied unchanged |
| ProcesarCoreService.ConvertirAComercioRequest | src/main/java/com/banquito/paymentprocessor/procesarcores/banquito/service/ProcesarCoreService.java:149-163 | only `tipo` is defaulted (to "COM"); IBAN, SWIFT, unique code, amount and reference are copied unchanged |
| ProcesarCoreService.TranslatorsAgree | src/main/java/com/banquito/paymentprocessor/procesarcores/banquito/service/ProcesarCoreService.java:130-162 | the debit and credit requests carry the same type, amount, unique code and reference |
| ProcesarCoreService.ProcesarTransaccionTarjeta | src/main/java/com/banquito/paymentprocessor/procesarcores/banquito/service/ProcesarCoreService.java:79-94 | the debit call fails if and only if the client threw, and then with a CoreProcessingException without code or cause (the client's exception and any code it carried are dropped) whose message is "Error al procesar débito a tarjeta: " + the thrown message; a response, with or without body, is passed on untouched |
| ProcesarCoreService.ProcesarTransaccionCuenta | src/main/java/com/banquito/paymentprocessor/procesarcores/banquito/service/ProcesarCoreService.java:96-111 | the same for the credit call, with the prefix "Error al procesar crédito a cuenta de comercio: " |
| ProcesarCoreService.InvocarCore | src/main/java/com/banquito/paymentprocessor/procesarcores/banquito/service/ProcesarCoreService.java:79-111 | a leg fails if and only if the client threw, and then with a CoreProcessingException whose message is the leg's prefix + the thrown message; a response is passed on untouched |
| ProcesarCoreService.ValidarRespuestaCore | src/main/java/com/banquito/paymentprocessor/procesarcores/banquito/service/ProcesarCoreService.java:113-124 | accepts if and only if there is a body whose `estado` is exactly "APROBADO"; a missing body gives "No se recibió respuesta del core bancario para " + leg; a rejecting body gives "Transacción rechazada por el core para " + leg + ": " + the core's message |
| ProcesarCoreService.Leg | src/main/java/com/banquito/paymentprocessor/procesarcores/banquito/service/ProcesarCoreService.java:49-56 | a leg's answer, once validated, ends without an exception if and only if it is a body whose `estado` is exactly "APROBADO"; an exception from the call is passed on unchanged |
| ProcesarCoreService.ProcesarTransaccion | src/main/java/com/banquito/paymentprocessor/procesarcores/banquito/service/ProcesarCoreService.java:44-77 | the debit is called exactly once, first, with the translated card request; the credit is called, once and second, if and only if the debit approved; the result is "APROBADO" if and only if both legs approved, otherwise "RECHAZADO" (never anything else); `codigoUnico` is the input's on every path; the message names the leg and cause that ended the run |
| ProcesarCoreService.DebitRejectionQuotesCore | src/main/java/com/banquito/paymentprocessor/procesarcores/banquito/service/ProcesarCoreService.java:120-122 | a debit rejected by the core yields "Error en procesamiento: Transacción rechazada por el core para tarjeta: " + the core's message, which therefore contains it |
| ProcesarCoreService.CreditRejectionQuotesCore | src/main/java/com/banquito/paymentprocessor/procesarcores/banquito/service/ProcesarCoreService.java:120-122 | the same for a credit rejected after an approved debit, with leg "cuenta" |
| ProcesarCoreService.ClientExceptionQuoted | src/main/java/com/banquito/paymentprocessor/procesarcores/banquito/service/ProcesarCoreService.java:90-92 | a client exception is wrapped with the leg's prefix and then with "Error en procesamiento: ", so the result message contains the original message |
| ProcesarCoreService.NullBodyNamesLeg | src/main/java/com/banquito/paymentprocessor/procesarcores/banquito/service/ProcesarCoreService.java:114-116 | a response without body yields "No se recibió respuesta del core bancario para " + the leg's name |
| ProcesarCoreService.AprobadaIsRejected | src/main/java/com/banquito/paymentprocessor/procesarcores/banquito/service/ProcesarCoreService.java:120 | the comparison is exact: a debit body saying "APROBADA" is a rejection and the credit is never called |
| ProcesaCoresService.Guard | src/main/java/com/banquito/paymentprocessor/procesarcores/banquito/service/ProcesaCoresService.java:31-32 | the guard throws exactly when the call threw or the status is OK with a null body; it holds exactly for OK with an approving body; a non-OK status never reads the body |
| ProcesaCoresService.ProcesarTransaccion | src/main/java/com/banquito/paymentprocessor/procesarcores/banquito/service/ProcesaCoresService.java:25-58 | "acreditar-comercio" is called if and only if the card validation is OK and approved, and both calls post the unchanged transaction; APROBADA if and only if both accept, and code 00 if and only if both accept, always with a null message; RECHAZADA/51 "Error en acreditación al comercio" for a credit refusal; RECHAZADA/05 "Tarjeta rechazada" for a card refusal; ERROR/96 "Error en procesamiento" for every exception; estado and code always come from these tables |
| ProcesaCoresService.NonOkStatusIgnoresBody | src/main/java/com/banquito/paymentprocessor/procesarcores/banquito/service/ProcesaCoresService.java:31-32 | with a non-OK card status the body plays no part and the answer is code 05 |
| ProcesarCoreController.CrearRespuestaError | src/main/java/com/banquito/paymentprocessor/procesarcores/banquito/controller/ProcesarCoreController.java:201-207 | the body has `estado` "ERROR", the given code and message, and nothing else |
| ProcesarCoreController.DeterminarRespuestaHttp | src/main/java/com/banquito/paymentprocessor/procesarcores/banquito/controller/ProcesarCoreController.java:191-199 | the body is returned unchanged; 500 if and only if `estado` is "ERROR", 422 if and only if it is "RECHAZADA", 200 otherwise, null included |
| ProcesarCoreController.ProcesarTransaccion | src/main/java/com/banquito/paymentprocessor/procesarcores/banquito/controller/ProcesarCoreController.java:76-108 | the service is called if and only if the amount is present and positive; otherwise 400 with ERROR / "13" / "El monto debe ser mayor a cero"; a returned body passes unchanged with 500 for "ERROR", 422 for "RECHAZADA", else 200; a CoreProcessingException gives 422 with the error body of `crearRespuestaError` (its message, and its code or "96" when it has none); any other exception gives 500 with ERROR / "99" / "Error interno del servidor: " + message |
| ProcesarCoreController.InlineMappingMatchesDeterminar | src/main/java/com/banquito/paymentprocessor/procesarcores/banquito/controller/ProcesarCoreController.java:88-97 | for a valid amount, the inline mapping and `determinarRespuestaHttp` give the same status and body for every service result |
| ProcesarCoreController.ProcesarDebitoTarjeta | src/main/java/com/banquito/paymentprocessor/procesarcores/banquito/controller/ProcesarCoreController.java:140-148 | a returned result is mapped by `determinarRespuestaHttp`; an exception gives 500 with the error body of `crearRespuestaError`: ERROR / "97" / "Error al procesar débito: " + message, every other field null |
| ProcesarCoreController.ProcesarCreditoComercio | src/main/java/com/banquito/paymentprocessor/procesarcores/banquito/controller/ProcesarCoreController.java:180-188 | a returned result is mapped by `determinarRespuestaHttp`; an exception gives 500 with the error body of `crearRespuestaError`: ERROR / "98" / "Error al procesar crédito: " + message, every other field null |
| Composition.OrchestratorResultsAnsweredOk | src/main/java/com/banquito/paymentprocessor/procesarcores/banquito/controller/ProcesarCoreController.java:88-97 | every result of the two-leg orchestrator (which answers only APROBADO or RECHAZADO, ProcesarCoreService.java:64,73) is sent with HTTP 200 and its body unchanged, rejections included |
| Composition.AlternateResultsMapped | src/main/java/com/banquito/paymentprocessor/procesarcores/banquito/service/ProcesaCoresService.java:36-55 | through `determinarRespuestaHttp` the alternate orchestrator's answers get 200 exactly when both legs accept, 500 exactly on an exception, 422 exactly on a refusal |
| Composition.DecodedDebitErrorReachesResult | src/main/java/com/banquito/paymentprocessor/procesarcores/banquito/config/CoreClientErrorDecoder.java:17-22 | if the decoder is registered with the client, a 4xx debit answer, decoded and thrown by the client, ends the run after one call with RECHAZADO; the message quotes the HTTP reason and the "ERROR-4xx" code does not reach the result |

## Left out

- Network I/O: the Feign client interface (CoreBancarioClient.java) and the WebClient post / timeout / block. Each call's outcome is an input of the orchestrators. The configured timeout matters only through those outcomes.
- Real sleeping and thread interruption. The retry step returns the delay it requests and takes "the sleep was interrupted" as a boolean input. Restoring the interrupt flag is recorded in the verdict.
- Feign's default error decoder, which handles every other non-2xx status (Feign calls an error decoder only for non-2xx answers). It is not part of this model. The decoder's `Delegated` result keeps only the method key, status and reason; the headers and body of the response are not modelled.
- `LocalDateTime.now()` for `fechaProceso`, and all logging.
- Spring wiring and annotations. This covers `@Value` injection (the retryer's configuration is a parameter of `Configured`), OpenApiConfig.java, BanquitoApplication.java, and the Swagger / Lombok / validation annotations. The inbound DTO applies no validation constraint.
- The `dto` package (TransaccionCoreDTO, CoreResponse, TransaccionCoreResponseDTO under `dto/`). The alternate orchestrator imports neither `dto` nor `controller.dto`, and the three names it uses exist in both. The model takes the `controller/dto` versions (dto.dfy). The choice changes nothing: `CoreResponse` and `TransaccionCoreResponseDTO` have the same fields in both packages, and the inbound transaction is posted unchanged.
- `procesarDebitoTarjeta` / `procesarCreditoComercio` of the service. The controller calls them, but the service does not define them. Their outcome is an input of the two single-leg endpoints.
- `nombreComercio` / `codigoComercio` of the merchant request are never set. The translator sets `iban` and `swift`, which the request class as written lacks; the model uses the fields the translator writes.
- Reversal of a debit after a failed credit. No code performs one, so none is modelled.
- The `codigoUnico` and `fechaProceso` fields and the builder that the orchestrator uses on its result. The response class as written (controller/dto/TransaccionCoreResponseDTO.java) has none of them. The model gives the result a `codigoUnico` field because the orchestrator sets it; `fechaProceso` is left out with the clock.
- BigDecimal arithmetic. Amounts are integers because the code only compares them with zero and copies them.
- The 32-bit range of the `Integer` fields `diferido` and `cuotas`. They are only compared with zero or copied.
- A null exception message is modelled as `None`. It renders as "null" only where Java concatenates it.
- CoreClientRetryer.ConfiguredAttemptsExactly: states the attempt count and delays only for a non-negative backoff with backoff * maxAttempts fitting in a `long`. With a negative backoff `Thread.sleep` throws on the first retry, so there are not m attempts; with a larger product the delays wrap. `ContinueOrPropagate` states both cases.
- CoreClientRetryer.CounterWrapEndsPropagation: says nothing about a backoff above the largest `int`, where the delay product can wrap to either sign; `ContinueOrPropagate` states that case.
- CoreClientRetryer.PropagationIsSticky: holds only while the counter stays at or below the largest `int`. `CounterWrapEndsPropagation` shows that it fails beyond that point.

=== FILE: common.dfy ===
/** Shared vocabulary: Java's nullable references, Java string rendering of a
    possibly-null value, and a substring relation used to state what a
    message carries. */
module Common {

  /** A Java reference that may be null. */
  datatype Option<+T> = None | Some(value: T)

  /** A value or the exception that was thrown instead of it. */
  datatype Result<+T, +E> = Success(value: T) | Failure(error: E)

  /** How Java renders a possibly-null String inside a concatenation or a
      `%s` format: `null` becomes the four characters "null". */
  function AsText(s: Option<string>): (r: string)
    ensures s.Some? ==> r == s.value
    ensures s.None? ==> r == "null"
  {
    match s
    case Some(v) => v
    case None => "null"
  }

  /** `needle` occurs in `hay` starting at position `k`. */
  predicate OccursAt(hay: string, needle: string, k: int)
  {
    0 <= k && k + |needle| <= |hay| && hay[k..k + |needle|] == needle
  }

  /** `needle` occurs somewhere inside `hay` (Java's String.contains). */
  predicate Contains(hay: string, needle: string)
  {
    exists k :: 0 <= k <= |hay| && OccursAt(hay, needle, k)
  }

  /** Whatever is appended after a prefix is contained in the whole. */
  lemma ContainsSuffix(prefix: string, s: string)
    ensures Contains(prefix + s, s)
  {
    var whole := prefix + s;
    assert whole[|prefix|..|prefix| + |s|] == s;
    assert OccursAt(whole, s, |prefix|);
  }

}

=== FILE: composition.dfy ===
/** Properties of the pieces put together: the error decoder feeding the
    orchestrator, and each orchestrator's results going through the
    controller's status mapping. */
module Composition {
  import opened Common
  import opened Dto
  import opened CoreExceptions
  import Decoder = CoreClientErrorDecoder
  import Service = ProcesarCoreService
  import Alternate = ProcesaCoresService
  import Controller = ProcesarCoreController

  /** The orchestrator only ever says "APROBADO" or "RECHAZADO", and the
      controller tests for "ERROR" and "RECHAZADA": so every result of a run
      with a valid amount, a rejection included, is answered with 200. */
  lemma OrchestratorResultsAnsweredOk(t: TransaccionCore, debito: Service.LegOutcome, credito: Service.LegOutcome)
    requires Controller.MontoValido(t.monto)
    ensures var r := Service.ProcesarTransaccion(t, debito, credito).0;
      && Controller.ProcesarTransaccion(t, Controller.Returned(r)).0 == Controller.HttpResponse(200, r)
      && r.estado != Some(Error) && r.estado != Some(Rechazada)
  {
  }

  /** The alternate orchestrator's vocabulary is the one the controller
      tests: approval gives 200, a rejection 422, an error 500. */
  lemma AlternateResultsMapped(t: TransaccionCore, tarjeta: Alternate.CoreReply, comercio: Alternate.CoreReply)
    ensures var h := Controller.DeterminarRespuestaHttp(Alternate.ProcesarTransaccion(t, tarjeta, comercio).0);
      && (h.status == 200 <==> Alternate.Accepts(tarjeta) && Alternate.Accepts(comercio))
      && (h.status == 500 <==> Alternate.Faults(tarjeta) || (Alternate.Accepts(tarjeta) && Alternate.Faults(comercio)))
      && (h.status == 422 <==>
            || (!Alternate.Faults(tarjeta) && !Alternate.Accepts(tarjeta))
            || (Alternate.Accepts(tarjeta) && !Alternate.Faults(comercio) && !Alternate.Accepts(comercio)))
  {
  }

  /** When the decoder is registered with the client: a 4xx answer to the
      debit, decoded into a CoreProcessingException and thrown by the
      client, ends the run after one call with a rejection
      whose message quotes the HTTP reason; the "ERROR-4xx" code is lost. */
  lemma DecodedDebitErrorReachesResult(t: TransaccionCore, methodKey: string, status: int,
                                       reason: Option<string>, credito: Service.LegOutcome)
    requires Decoder.IsClientError(status)
    ensures var f := Decoder.Decode(methodKey, status, reason).fault;
      var res := Service.ProcesarTransaccion(t, Service.Threw(GetMessage(f)), credito);
      && |res.1| == 1
      && res.0.estado == Some("RECHAZADO")
      && res.0.codigoRespuesta.None?
      && Contains(res.0.mensaje.value, "Error en la llamada al core bancario: " + AsText(reason))
  {
    var f := Decoder.Decode(methodKey, status, reason).fault;
    var m := "Error en la llamada al core bancario: " + AsText(reason);
    assert GetMessage(f) == Some(m);
    Service.ClientExceptionQuoted(t, Service.Threw(GetMessage(f)), credito);
  }
}

=== FILE: core_client_error_decoder.dfy ===
/** The Feign error decoder of the banking-core client: a 4xx answer becomes
    a domain `CoreProcessingException`; anything else goes to Feign's default
    decoder, which is not part of this model and is represented by the
    arguments handed to it. */
module CoreClientErrorDecoder {
  import opened Common
  import opened Decimal
  import opened CoreExceptions

  datatype Decoded =
    | Domain(fault: Fault)
    | Delegated(methodKey: string, status: int, reason: Option<string>)

  const MessagePrefix := "Error en la llamada al core bancario: "
  const CodePrefix := "ERROR-"

  predicate IsClientError(status: int)
  {
    400 <= status <= 499
  }

  function Decode(methodKey: string, status: int, reason: Option<string>): (d: Decoded)
    ensures d.Domain? <==> IsClientError(status)
    ensures d.Domain? ==> d.fault.CoreProcessing? && d.fault.cause.None?
    ensures d.Domain? ==> d.fault.message == Some(MessagePrefix + AsText(reason))
    ensures d.Domain? ==> d.fault.errorCode == Some(CodePrefix + NatToDecimal(status))
    ensures d.Delegated? ==> d == Delegated(methodKey, status, reason)
  {
    if 400 <= status && status <= 499 then
      Domain(NewCoreProcessingWithCode(Some(MessagePrefix + AsText(reason)),
                                       Some(CodePrefix + NatToDecimal(status))))
    else
      Delegated(methodKey, status, reason)
  }

  /** In the 4xx branch the method key plays no part. */
  lemma MethodKeyIgnoredForClientErrors(k1: string, k2: string, status: int, reason: Option<string>)
    requires IsClientError(status)
    ensures Decode(k1, status, reason) == Decode(k2, status, reason)
  {
  }

  /** The error code is "ERROR-" and three decimal digits that read back as the status. */
  lemma ErrorCodeSpellsStatus(methodKey: string, status: int, reason: Option<string>)
    requires IsClientError(status)
    ensures var code := Decode(methodKey, status, reason).fault.errorCode.value;
      && |code| == |CodePrefix| + 3
      && code[..|CodePrefix|] == CodePrefix
      && AllDigits(code[|CodePrefix|..])
      && DecimalValue(code[|CodePrefix|..]) == status
  {
    var code := Decode(methodKey, status, reason).fault.errorCode.value;
    ThreeDigits(status);
    DecimalRoundTrip(status);
    assert code[|CodePrefix|..] == NatToDecimal(status);
  }

  /** Two client errors with the same error code had the same status. */
  lemma ErrorCodeDeterminesStatus(k1: string, s1: int, r1: Option<string>,
                                  k2: string, s2: int, r2: Option<string>)
    requires IsClientError(s1) && IsClientError(s2)
    requires Decode(k1, s1, r1).fault.errorCode == Decode(k2, s2, r2).fault.errorCode
    ensures s1 == s2
  {
    var c1 := Decode(k1, s1, r1).fault.errorCode.value;
    var c2 := Decode(k2, s2, r2).fault.errorCode.value;
    assert c1[|CodePrefix|..] == NatToDecimal(s1);
    assert c2[|CodePrefix|..] == NatToDecimal(s2);
    NatToDecimalInjective(s1, s2);
  }
}

=== FILE: core_client_retryer.dfy ===
/** The Feign retryer of the banking-core client as a counter state machine.
    The counter is a Java `int` and the backoff a Java `long`, so increments
    and the delay product wrap around as they do on the JVM. Sleeping and
    thread interruption are not performed: the step returns the delay it asks
    for, and whether the sleep was interrupted is an input. */
module CoreClientRetryer {

  const MinInt32: int := -0x8000_0000
  const MaxInt32: int := 0x7fff_ffff
  const MinInt64: int := -0x8000_0000_0000_0000
  const MaxInt64: int := 0x7fff_ffff_ffff_ffff

  type Int32 = x: int | -0x8000_0000 <= x <= 0x7fff_ffff
  type Int64 = x: int | -0x8000_0000_0000_0000 <= x <= 0x7fff_ffff_ffff_ffff

  /** Two's-complement truncation to 32 bits. */
  function WrapInt32(x: int): (r: Int32)
    ensures MinInt32 <= x <= MaxInt32 ==> r == x
  {
    if MinInt32 <= x <= MaxInt32 then x
    else (x + 0x8000_0000) % 0x1_0000_0000 - 0x8000_0000
  }

  /** Two's-complement truncation to 64 bits. */
  function WrapInt64(x: int): (r: Int64)
    ensures MinInt64 <= x <= MaxInt64 ==> r == x
  {
    if MinInt64 <= x <= MaxInt64 then x
    else (x + 0x8000_0000_0000_0000) % 0x1_0000_0000_0000_0000 - 0x8000_0000_0000_0000
  }

  /** The instance's three fields. */
  datatype Retryer = Retryer(attempt: Int32, maxAttempts: Int32, backoff: Int64)

  /** What one `continueOrPropagate` call does after bumping the counter:
      return normally after sleeping `millis`; rethrow the retryable
      exception (`interruptRestored` when the sleep was interrupted and the
      thread's interrupt flag was set again); or fail in `Thread.sleep`
      because the requested delay is negative. */
  datatype Verdict =
    | Sleep(millis: int)
    | Propagate(interruptRestored: bool)
    | NegativeSleep(millis: int)

  /** An instance whose configuration was injected: the counter starts at 1. */
  function Configured(maxAttempts: Int32, backoff: Int64): (r: Retryer)
    ensures r.attempt == 1
    ensures r.maxAttempts == maxAttempts && r.backoff == backoff
  {
    Retryer(1, maxAttempts, backoff)
  }

  /** `clone()` calls the no-argument constructor: nothing is injected into
      that instance, so its configuration fields keep Java's zero defaults. */
  function Clone(r: Retryer): (c: Retryer)
    ensures c.attempt == 1
    ensures c.maxAttempts == 0 && c.backoff == 0
  {
    Retryer(1, 0, 0)
  }

  /** One call of `continueOrPropagate`. */
  function ContinueOrPropagate(r: Retryer, interrupted: bool): (res: (Verdict, Retryer))
    ensures res.1.attempt == WrapInt32(r.attempt + 1)
    ensures res.1.maxAttempts == r.maxAttempts && res.1.backoff == r.backoff
    ensures r.attempt >= r.maxAttempts ==> res.0 == Propagate(false)
    ensures r.attempt < r.maxAttempts ==> res.0 != Propagate(false)
    ensures res.0.Sleep? <==>
      r.attempt < r.maxAttempts && !interrupted && 0 <= WrapInt64(r.backoff * res.1.attempt)
    ensures res.0.Sleep? || res.0.NegativeSleep? ==>
      res.0.millis == WrapInt64(r.backoff * res.1.attempt)
    ensures res.0 == Propagate(true) <==>
      r.attempt < r.maxAttempts && interrupted && 0 <= WrapInt64(r.backoff * res.1.attempt)
  {
    var next := r.(attempt := WrapInt32(r.attempt + 1));
    if r.attempt >= r.maxAttempts then
      (Propagate(false), next)
    else
      var millis := WrapInt64(r.backoff * next.attempt);
      if millis < 0 then (NegativeSleep(millis), next)
      else if interrupted then (Propagate(true), next)
      else (Sleep(millis), next)
  }

  /** `n` consecutive uninterrupted calls: the verdicts in order and the final state. */
  function Run(r: Retryer, n: nat): (res: (seq<Verdict>, Retryer))
    ensures |res.0| == n
    ensures res.1.maxAttempts == r.maxAttempts && res.1.backoff == r.backoff
    decreases n
  {
    if n == 0 then ([], r)
    else
      var (v, r') := ContinueOrPropagate(r, false);
      var (vs, r'') := Run(r', n - 1);
      ([v] + vs, r'')
  }

  /** Multiplying by a non-negative backoff keeps the order of the factors. */
  lemma MulMonotone(b: int, x: int, y: int)
    requires 0 <= b && 0 <= x <= y
    ensures 0 <= b * x <= b * y
  {
  }

  /** One call below the limit, with a non-negative counter and backoff and
      a delay that fits in a `long`: the call sleeps for `backoff` times the
      incremented counter. (A negative backoff makes `Thread.sleep` throw.) */
  lemma StepBelowLimit(r: Retryer)
    requires 0 <= r.attempt < r.maxAttempts
    requires 0 <= r.backoff && r.backoff * r.maxAttempts <= MaxInt64
    ensures ContinueOrPropagate(r, false).0 == Sleep(r.backoff * (r.attempt + 1))
    ensures ContinueOrPropagate(r, false).1 == r.(attempt := r.attempt + 1)
  {
    MulMonotone(r.backoff, r.attempt + 1, r.maxAttempts);
  }

  /** While a non-negative counter stays below the limit and the backoff is
      non-negative, every call sleeps, for `backoff` times the already
      incremented counter. */
  lemma {:induction false} RunBelowLimit(r: Retryer, n: nat)
    requires 0 <= r.attempt && r.attempt + n <= r.maxAttempts
    requires 0 <= r.backoff && r.backoff * r.maxAttempts <= MaxInt64
    ensures Run(r, n).1.attempt == r.attempt + n
    ensures forall k :: 0 <= k < n ==> Run(r, n).0[k] == Sleep(r.backoff * (r.attempt + k + 1))
    decreases n
  {
    if n > 0 {
      StepBelowLimit(r);
      var r' := r.(attempt := r.attempt + 1);
      RunBelowLimit(r', n - 1);
      var vs := Run(r', n - 1).0;
      var all := Run(r, n).0;
      assert all == [Sleep(r.backoff * (r.attempt + 1))] + vs;
      forall k | 0 <= k < n
        ensures all[k] == Sleep(r.backoff * (r.attempt + k + 1))
      {
        if k > 0 {
          var j := k - 1;
          assert all[k] == vs[j];
          assert vs[j] == Sleep(r.backoff * (r'.attempt + j + 1));
          assert r'.attempt + j + 1 == r.attempt + k + 1;
        }
      }
    }
  }

  /** Once the counter has reached the limit every later call propagates,
      as long as the counter does not wrap past the largest `int`. */
  lemma {:induction false} PropagationIsSticky(r: Retryer, n: nat)
    requires r.attempt >= r.maxAttempts
    requires r.attempt + n <= MaxInt32
    ensures forall k :: 0 <= k < n ==> Run(r, n).0[k] == Propagate(false)
    ensures Run(r, n).1.attempt == r.attempt + n
    decreases n
  {
    if n > 0 {
      var (v, r') := ContinueOrPropagate(r, false);
      PropagationIsSticky(r', n - 1);
      var vs := Run(r', n - 1).0;
      assert Run(r, n).0 == [v] + vs;
      forall k | 0 <= k < n
        ensures Run(r, n).0[k] == Propagate(false)
      {
        if k > 0 {
          assert Run(r, n).0[k] == vs[k - 1];
        }
      }
    }
  }

  /** A configured retryer with limit m >= 1 makes m - 1 normal returns,
      the k-th (counting from 1) after sleeping backoff * (k + 1), and
      propagates on the m-th call: m attempts of the remote call in all
      (index k of the verdicts is the (k + 1)-th call). */
  lemma ConfiguredAttemptsExactly(m: Int32, b: Int64)
    requires 1 <= m
    requires 0 <= b && b * m <= MaxInt64
    ensures var vs := Run(Configured(m, b), m).0;
      && (forall k :: 0 <= k < m - 1 ==> vs[k] == Sleep(b * (k + 2)))
      && vs[m - 1] == Propagate(false)
  {
    var r := Configured(m, b);
    RunBelowLimit(r, m - 1);
    RunSplit(r, m - 1, 1);
    var mid := Run(r, m - 1).1;
    assert mid.attempt == m;
  }

  /** One more call in front: the first verdict, then the rest from the next state. */
  lemma RunUnfold(r: Retryer, n: nat)
    requires 0 < n
    ensures var step := ContinueOrPropagate(r, false);
      && Run(r, n).0 == [step.0] + Run(step.1, n - 1).0
      && Run(r, n).1 == Run(step.1, n - 1).1
  {
  }

  /** Running n + j calls is running n calls and then j more. */
  lemma {:induction false} RunSplit(r: Retryer, n: nat, j: nat)
    ensures Run(r, n + j).0 == Run(r, n).0 + Run(Run(r, n).1, j).0
    ensures Run(r, n + j).1 == Run(Run(r, n).1, j).1
    decreases n
  {
    if n > 0 {
      var next := ContinueOrPropagate(r, false);
      RunUnfold(r, n + j);
      RunUnfold(r, n);
      RunSplit(next.1, n - 1, j);
      assert n + j - 1 == (n - 1) + j;
      var v := [next.0];
      var a := Run(next.1, n - 1).0;
      var b := Run(Run(next.1, n - 1).1, j).0;
      assert v + (a + b) == (v + a) + b;
    }
  }

  /** With a limit of one or less the very first call propagates. */
  lemma SmallLimitPropagatesAtOnce(m: Int32, b: Int64, interrupted: bool)
    requires m <= 1
    ensures ContinueOrPropagate(Configured(m, b), interrupted).0 == Propagate(false)
  {
  }

  /** The instance Feign obtains through `clone()` never retries: its first
      call already propagates, whatever the original was configured with. */
  lemma ClonedRetryerNeverRetries(r: Retryer, interrupted: bool)
    ensures ContinueOrPropagate(Clone(r), interrupted).0 == Propagate(false)
  {
  }

  /** At the largest `int` the call propagates and the increment wraps to
      the smallest one. The next call no longer propagates: with a zero
      backoff it sleeps, and with a positive backoff the delay is negative
      and `Thread.sleep` throws. */
  lemma CounterWrapEndsPropagation(r: Retryer)
    requires r.attempt == MaxInt32 && r.maxAttempts > MinInt32
    ensures ContinueOrPropagate(r, false).0 == Propagate(false)
    ensures ContinueOrPropagate(r, false).1.attempt == MinInt32
    ensures ContinueOrPropagate(ContinueOrPropagate(r, false).1, false).0 != Propagate(false)
    ensures r.backoff == 0 ==> ContinueOrPropagate(ContinueOrPropagate(r, false).1, false).0 == Sleep(0)
    ensures 0 < r.backoff <= MaxInt32 ==>
      ContinueOrPropagate(ContinueOrPropagate(r, false).1, false).0.NegativeSleep?
  {
  }
}

=== FILE: core_exceptions.dfy ===
/** The exceptions the core raises and catches. `CoreProcessingException` is
    the domain error (a message plus an optional error code); every other Java
    exception the core meets is `OtherException`, known only by its message. */
module CoreExceptions {
  import opened Common

  datatype Fault =
    | CoreProcessing(message: Option<string>, errorCode: Option<string>, cause: Option<Fault>)
    | OtherException(message: Option<string>)

  /** Throwable.getMessage */
  function GetMessage(e: Fault): Option<string>
  {
    e.message
  }

  /** CoreProcessingException.getErrorCode: the code, or null when none was given. */
  function GetErrorCode(e: Fault): Option<string>
    requires e.CoreProcessing?
  {
    e.errorCode
  }

  /** `new CoreProcessingException(message)` */
  function NewCoreProcessing(message: Option<string>): (e: Fault)
    ensures e.CoreProcessing? && e.cause.None?
    ensures GetMessage(e) == message
    ensures GetErrorCode(e).None?
  {
    CoreProcessing(message, None, None)
  }

  /** `new CoreProcessingException(message, errorCode)` */
  function NewCoreProcessingWithCode(message: Option<string>, errorCode: Option<string>): (e: Fault)
    ensures e.CoreProcessing? && e.cause.None?
    ensures GetMessage(e) == message
    ensures GetErrorCode(e) == errorCode
  {
    CoreProcessing(message, errorCode, None)
  }

  /** Throwable.getCause: the cause, or null when none was given. */
  function GetCause(e: Fault): Option<Fault>
    requires e.CoreProcessing?
  {
    e.cause
  }

  /** `new CoreProcessingException(message, cause)`; the cause may be null. */
  function NewCoreProcessingWithCause(message: Option<string>, cause: Option<Fault>): (e: Fault)
    ensures e.CoreProcessing?
    ensures GetMessage(e) == message
    ensures GetErrorCode(e).None?
    ensures GetCause(e) == cause
  {
    CoreProcessing(message, None, cause)
  }

  /** Seen through the getters: only the (message, errorCode) constructor
      given a non-null code yields an exception with a code, and the
      (message, cause) constructor given a null cause yields exactly what
      the message-only constructor does. */
  lemma ErrorCodeOnlyFromCodeConstructor(message: Option<string>, errorCode: Option<string>,
                                         cause: Option<Fault>)
    ensures GetErrorCode(NewCoreProcessingWithCode(message, errorCode)).Some? <==> errorCode.Some?
    ensures GetErrorCode(NewCoreProcessing(message)).None?
    ensures GetErrorCode(NewCoreProcessingWithCause(message, cause)).None?
    ensures cause.None? ==> NewCoreProcessingWithCause(message, cause) == NewCoreProcessing(message)
  {
  }
}

=== FILE: decimal.dfy ===
/** Decimal rendering of a non-negative Java `int`, as `"ERROR-" + status`
    produces it, together with the reading that inverts it. */
module Decimal {

  predicate IsDigit(c: char)
  {
    '0' <= c <= '9'
  }

  predicate AllDigits(s: string)
  {
    forall i :: 0 <= i < |s| ==> IsDigit(s[i])
  }

  function DigitValue(c: char): (d: nat)
    requires IsDigit(c)
    ensures d < 10
  {
    c as int - '0' as int
  }

  function DigitChar(d: nat): (c: char)
    requires d < 10
    ensures IsDigit(c)
    ensures DigitValue(c) == d
  {
    ('0' as int + d) as char
  }

  /** Integer.toString for a non-negative value: no sign, no leading zero. */
  function NatToDecimal(n: nat): (s: string)
    ensures 1 <= |s|
    ensures AllDigits(s)
    ensures 1 < |s| ==> s[0] != '0'
    ensures n < 10 <==> |s| == 1
    decreases n
  {
    if n < 10 then [DigitChar(n)] else NatToDecimal(n / 10) + [DigitChar(n % 10)]
  }

  /** The number a string of decimal digits denotes. */
  function DecimalValue(s: string): nat
    requires AllDigits(s)
  {
    if |s| == 0 then 0 else DecimalValue(s[..|s| - 1]) * 10 + DigitValue(s[|s| - 1])
  }

  /** Reading back a rendered number gives the number. */
  lemma {:induction false} DecimalRoundTrip(n: nat)
    ensures DecimalValue(NatToDecimal(n)) == n
    decreases n
  {
    var s := NatToDecimal(n);
    if n < 10 {
    } else {
      var p := NatToDecimal(n / 10);
      assert s == p + [DigitChar(n % 10)];
      assert s[..|s| - 1] == p;
      DecimalRoundTrip(n / 10);
    }
  }

  /** Distinct numbers render as distinct strings. */
  lemma NatToDecimalInjective(a: nat, b: nat)
    requires NatToDecimal(a) == NatToDecimal(b)
    ensures a == b
  {
    DecimalRoundTrip(a);
    DecimalRoundTrip(b);
  }

  /** Every number from 100 to 999 renders as exactly three digits. */
  lemma {:induction false} ThreeDigits(n: nat)
    requires 100 <= n <= 999
    ensures |NatToDecimal(n)| == 3
  {
    assert 10 <= n / 10 < 100;
    assert 1 <= n / 100 < 10;
    assert (n / 10) / 10 == n / 100;
  }
}

=== FILE: dto.dfy ===
/** The records the core reads and writes, with the fields the code uses.
    Every Java reference field may be null, hence `Option`. Amounts are
    integers in the currency's smallest unit: the core only compares them
    with zero and copies them. */
module Dto {
  import opened Common

  /** The inbound transaction (controller/dto/TransaccionCoreDTO). */
  datatype TransaccionCore = TransaccionCore(
    codTransaccion: Option<string>,
    codigoUnico: Option<string>,
    codigoGtw: Option<string>,
    numeroTarjeta: Option<string>,
    cvv: Option<string>,
    fechaCaducidad: Option<string>,
    monto: Option<int>,
    codigoMoneda: Option<string>,
    marca: Option<string>,
    estado: Option<string>,
    referencia: Option<string>,
    pais: Option<string>,
    tipo: Option<string>,
    swiftBancoComercio: Option<string>,
    cuentaIbanComercio: Option<string>,
    swiftBancoTarjeta: Option<string>,
    transaccionEncriptada: Option<string>,
    diferido: Option<int>,
    cuotas: Option<int>)

  /** The card-debit request sent to the core. The translator always fills
      `tipo`, `moneda`, `pais`, `diferido` and `cuotas`, so they are not
      nullable here. */
  datatype TarjetaRequest = TarjetaRequest(
    tipo: string,
    monto: Option<int>,
    moneda: string,
    pais: string,
    swift: Option<string>,
    numeroTarjeta: Option<string>,
    codigoUnicoTransaccion: Option<string>,
    referencia: Option<string>,
    transaccionEncriptada: Option<string>,
    diferido: bool,
    cuotas: int)

  /** The merchant-credit request, with the fields the translator sets. */
  datatype ComercioRequest = ComercioRequest(
    iban: Option<string>,
    swift: Option<string>,
    tipo: string,
    codigoUnico: Option<string>,
    monto: Option<int>,
    referencia: Option<string>)

  /** The banking core's answer to a debit or credit (client/dto/CoreResponseDTO). */
  datatype CoreResponseDto = CoreResponseDto(
    transaccionExitosa: Option<bool>,
    codigoAutorizacion: Option<string>,
    mensaje: Option<string>,
    estado: Option<string>,
    codigoError: Option<string>)

  /** The core's answer in the alternate flow (controller/dto/CoreResponse). */
  datatype CoreResponse = CoreResponse(
    aprobada: bool,
    mensaje: Option<string>,
    codigoRespuesta: Option<string>,
    swiftBanco: Option<string>)

  /** The transaction result returned to the caller
      (controller/dto/TransaccionCoreResponseDTO, plus the `codigoUnico` the
      orchestrator's builder sets). */
  datatype TransaccionCoreResponse = TransaccionCoreResponse(
    codigoUnico: Option<string>,
    estado: Option<string>,
    codigoRespuesta: Option<string>,
    mensaje: Option<string>,
    swiftBanco: Option<string>)

  /** The `estado` values the controller tells apart. */
  const Error := "ERROR"
  const Rechazada := "RECHAZADA"

  /** `new TransaccionCoreResponseDTO()`: every field null. */
  const EmptyResponse := TransaccionCoreResponse(None, None, None, None, None)
}

=== FILE: procesa_cores_service.dfy ===
/** The alternate orchestrator: validate the card, then credit the merchant,
    each by posting the unchanged inbound transaction to the core. Its
    decision tree maps the two answers onto its own code table. The two
    WebClient round trips are oracle inputs. */
module ProcesaCoresService {
  import opened Common
  import opened Dto

  /** What one WebClient call yields: an exception (timeout, remote error,
      a null entity) or a response whose status is or is not 200 OK, with a
      body that may be null. `retrieve()` turns a 4xx or 5xx answer into an
      exception, so a core's HTTP refusal is `Threw`; a reply that is not OK
      is a 2xx other than 200 or a redirect. */
  datatype CoreReply =
    | Threw
    | Reply(statusOk: bool, body: Option<CoreResponse>)

  /** A remote call the orchestrator made, with the object it posted. */
  datatype CoreCall =
    | ValidarTarjeta(transaccion: TransaccionCore)
    | AcreditarComercio(transaccion: TransaccionCore)

  const Aprobada := "APROBADA"
  const CodigoAprobada := "00"
  const CodigoFalloComercio := "51"
  const CodigoTarjetaRechazada := "05"
  const CodigoError := "96"
  const MensajeFalloComercio := "Error en acreditación al comercio"
  const MensajeTarjetaRechazada := "Tarjeta rechazada"
  const MensajeError := "Error en procesamiento"

  /** The reply is 200 OK with a body that says `aprobada`. */
  predicate Accepts(reply: CoreReply)
  {
    reply.Reply? && reply.statusOk && reply.body.Some? && reply.body.value.aprobada
  }

  /** Evaluating the reply's guard throws: the call itself threw, or the
      status is OK and the body is dereferenced although it is null. */
  predicate Faults(reply: CoreReply)
  {
    reply.Threw? || (reply.statusOk && reply.body.None?)
  }

  /** The leg's approval test: the status must be OK and then the body must
      say `aprobada`; the conjunction short-circuits, so the body is read
      only when the status is OK. `None` stands for the exception the
      evaluation throws. */
  function Guard(reply: CoreReply): (r: Option<bool>)
    ensures r.None? <==> Faults(reply)
    ensures r == Some(true) <==> Accepts(reply)
  {
    match reply
    case Threw => None
    case Reply(ok, body) =>
      if !ok then Some(false)
      else if body.None? then None
      else Some(body.value.aprobada)
  }

  function Respuesta(estado: string, codigo: string, mensaje: Option<string>): TransaccionCoreResponse
  {
    EmptyResponse.(estado := Some(estado), codigoRespuesta := Some(codigo), mensaje := mensaje)
  }

  /** `procesarTransaccion`: the response and the remote calls made, in order. */
  function ProcesarTransaccion(t: TransaccionCore, tarjeta: CoreReply, comercio: CoreReply)
    : (res: (TransaccionCoreResponse, seq<CoreCall>))
    ensures 1 <= |res.1| <= 2
    ensures res.1[0] == ValidarTarjeta(t)
    ensures |res.1| == 2 <==> Accepts(tarjeta)
    ensures |res.1| == 2 ==> res.1[1] == AcreditarComercio(t)
    ensures res.0.estado == Some(Aprobada) <==> Accepts(tarjeta) && Accepts(comercio)
    ensures res.0.estado == Some(Error) <==> Faults(tarjeta) || (Accepts(tarjeta) && Faults(comercio))
    ensures res.0.codigoRespuesta == Some(CodigoTarjetaRechazada) <==>
      !Faults(tarjeta) && !Accepts(tarjeta)
    ensures res.0.codigoRespuesta == Some(CodigoFalloComercio) <==>
      Accepts(tarjeta) && !Faults(comercio) && !Accepts(comercio)
    ensures res.0.codigoRespuesta == Some(CodigoAprobada) <==> Accepts(tarjeta) && Accepts(comercio)
    ensures res.0.codigoRespuesta == Some(CodigoAprobada) ==>
      res.0.estado == Some(Aprobada) && res.0.mensaje.None?
    ensures res.0.codigoRespuesta == Some(CodigoFalloComercio) ==>
      res.0.estado == Some(Rechazada) && res.0.mensaje == Some(MensajeFalloComercio)
    ensures res.0.codigoRespuesta == Some(CodigoTarjetaRechazada) ==>
      res.0.estado == Some(Rechazada) && res.0.mensaje == Some(MensajeTarjetaRechazada)
    ensures res.0.estado == Some(Error) ==>
      res.0.codigoRespuesta == Some(CodigoError) && res.0.mensaje == Some(MensajeError)
    ensures res.0.estado in {Some(Aprobada), Some(Rechazada), Some(Error)}
    ensures res.0.codigoRespuesta in
      {Some(CodigoAprobada), Some(CodigoFalloComercio), Some(CodigoTarjetaRechazada), Some(CodigoError)}
    ensures res.0.codigoUnico.None? && res.0.swiftBanco.None?
  {
    var error := Respuesta(Error, CodigoError, Some(MensajeError));
    match Guard(tarjeta)
    case None => (error, [ValidarTarjeta(t)])
    case Some(false) =>
      (Respuesta(Rechazada, CodigoTarjetaRechazada, Some(MensajeTarjetaRechazada)), [ValidarTarjeta(t)])
    case Some(true) =>
      var llamadas := [ValidarTarjeta(t), AcreditarComercio(t)];
      match Guard(comercio)
      case None => (error, llamadas)
      case Some(false) =>
        (Respuesta(Rechazada, CodigoFalloComercio, Some(MensajeFalloComercio)), llamadas)
      case Some(true) => (Respuesta(Aprobada, CodigoAprobada, None), llamadas)
  }

  /** A non-OK status is decided without looking at the body: replacing the
      body changes nothing. */
  lemma NonOkStatusIgnoresBody(t: TransaccionCore, b1: Option<CoreResponse>, b2: Option<CoreResponse>,
                               comercio: CoreReply)
    ensures ProcesarTransaccion(t, Reply(false, b1), comercio) == ProcesarTransaccion(t, Reply(false, b2), comercio)
    ensures ProcesarTransaccion(t, Reply(false, b1), comercio).0.codigoRespuesta == Some(CodigoTarjetaRechazada)
  {
  }
}

=== FILE: procesar_core_controller.dfy ===
/** The REST controller's mapping from a service result (or the exception
    the service threw) to an HTTP status and response body. The service is
    an oracle: what it returns or throws is an input, and the result records
    whether it was called at all. */
module ProcesarCoreController {
  import opened Common
  import opened Dto
  import opened CoreExceptions

  /** What a service call yields. */
  datatype ServiceOutcome =
    | Returned(response: TransaccionCoreResponse)
    | Raised(fault: Fault)

  datatype HttpResponse = HttpResponse(status: int, body: TransaccionCoreResponse)

  const HttpOk := 200
  const HttpBadRequest := 400
  const HttpUnprocessableEntity := 422
  const HttpInternalServerError := 500

  const MensajeMontoInvalido := "El monto debe ser mayor a cero"
  const CodigoMontoInvalido := "13"
  const CodigoCoreSinCodigo := "96"
  const CodigoErrorInterno := "99"
  const CodigoFalloDebito := "97"
  const CodigoFalloCredito := "98"
  const PrefijoErrorInterno := "Error interno del servidor: "
  const PrefijoFalloDebito := "Error al procesar débito: "
  const PrefijoFalloCredito := "Error al procesar crédito: "

  /** `crearRespuestaError`: an ERROR body with the given message and code. */
  function CrearRespuestaError(mensaje: Option<string>, codigo: string): (r: TransaccionCoreResponse)
    ensures r.estado == Some(Error) && r.codigoRespuesta == Some(codigo) && r.mensaje == mensaje
    ensures r.codigoUnico.None? && r.swiftBanco.None?
  {
    EmptyResponse.(estado := Some(Error), codigoRespuesta := Some(codigo), mensaje := mensaje)
  }

  /** `determinarRespuestaHttp`: the body unchanged, with 500 for "ERROR",
      422 for "RECHAZADA" and 200 for any other `estado`, null included. */
  function DeterminarRespuestaHttp(respuesta: TransaccionCoreResponse): (h: HttpResponse)
    ensures h.body == respuesta
    ensures h.status in {HttpOk, HttpUnprocessableEntity, HttpInternalServerError}
    ensures h.status == HttpInternalServerError <==> respuesta.estado == Some(Error)
    ensures h.status == HttpUnprocessableEntity <==> respuesta.estado == Some(Rechazada)
  {
    if respuesta.estado == Some(Error) then HttpResponse(HttpInternalServerError, respuesta)
    else if respuesta.estado == Some(Rechazada) then HttpResponse(HttpUnprocessableEntity, respuesta)
    else HttpResponse(HttpOk, respuesta)
  }

  /** The amount is present and greater than zero. */
  predicate MontoValido(monto: Option<int>)
  {
    monto.Some? && monto.value > 0
  }

  /** The `/procesar` endpoint: the HTTP response, and whether the service was called. */
  function ProcesarTransaccion(t: TransaccionCore, servicio: ServiceOutcome): (res: (HttpResponse, bool))
    ensures res.1 <==> MontoValido(t.monto)
    ensures !MontoValido(t.monto) ==>
      res.0 == HttpResponse(HttpBadRequest, CrearRespuestaError(Some(MensajeMontoInvalido), CodigoMontoInvalido))
    ensures res.0.status in {HttpOk, HttpBadRequest, HttpUnprocessableEntity, HttpInternalServerError}
    ensures MontoValido(t.monto) && servicio.Returned? ==> res.0.body == servicio.response
    ensures MontoValido(t.monto) && servicio.Returned? ==>
      res.0.status in {HttpOk, HttpUnprocessableEntity, HttpInternalServerError}
    ensures MontoValido(t.monto) && servicio.Returned? ==>
      (res.0.status == HttpInternalServerError <==> servicio.response.estado == Some(Error))
    ensures MontoValido(t.monto) && servicio.Returned? ==>
      (res.0.status == HttpUnprocessableEntity <==> servicio.response.estado == Some(Rechazada))
    ensures MontoValido(t.monto) && servicio.Raised? && servicio.fault.CoreProcessing? ==>
      && res.0.status == HttpUnprocessableEntity
      && (GetErrorCode(servicio.fault).Some? ==>
            res.0.body == CrearRespuestaError(GetMessage(servicio.fault), GetErrorCode(servicio.fault).value))
      && (GetErrorCode(servicio.fault).None? ==>
            res.0.body == CrearRespuestaError(GetMessage(servicio.fault), CodigoCoreSinCodigo))
    ensures MontoValido(t.monto) && servicio.Raised? && servicio.fault.OtherException? ==>
      && res.0.status == HttpInternalServerError
      && res.0.body == CrearRespuestaError(Some(PrefijoErrorInterno + AsText(GetMessage(servicio.fault))),
                                           CodigoErrorInterno)
  {
    if t.monto.None? || t.monto.value <= 0 then
      (HttpResponse(HttpBadRequest, CrearRespuestaError(Some(MensajeMontoInvalido), CodigoMontoInvalido)), false)
    else
      match servicio
      case Returned(respuesta) =>
        if respuesta.estado == Some(Error) then (HttpResponse(HttpInternalServerError, respuesta), true)
        else if respuesta.estado == Some(Rechazada) then (HttpResponse(HttpUnprocessableEntity, respuesta), true)
        else (HttpResponse(HttpOk, respuesta), true)
      case Raised(e) =>
        if e.CoreProcessing? then
          var codigo := if GetErrorCode(e).Some? then GetErrorCode(e).value else CodigoCoreSinCodigo;
          (HttpResponse(HttpUnprocessableEntity, CrearRespuestaError(GetMessage(e), codigo)), true)
        else
          (HttpResponse(HttpInternalServerError,
                        CrearRespuestaError(Some(PrefijoErrorInterno + AsText(GetMessage(e))), CodigoErrorInterno)),
           true)
  }

  /** The inline mapping of `/procesar` and `determinarRespuestaHttp` agree on
      every service result. */
  lemma InlineMappingMatchesDeterminar(t: TransaccionCore, respuesta: TransaccionCoreResponse)
    requires MontoValido(t.monto)
    ensures ProcesarTransaccion(t, Returned(respuesta)).0 == DeterminarRespuestaHttp(respuesta)
  {
  }

  /** A single-leg endpoint: the service result mapped by
      `determinarRespuestaHttp`, or a 500 with the endpoint's code when the
      service throws. */
  function ProcesarUnaPierna(servicio: ServiceOutcome, prefijo: string, codigo: string): (h: HttpResponse)
    ensures servicio.Returned? ==> h == DeterminarRespuestaHttp(servicio.response)
    ensures servicio.Raised? ==>
      h == HttpResponse(HttpInternalServerError,
                        CrearRespuestaError(Some(prefijo + AsText(GetMessage(servicio.fault))), codigo))
  {
    match servicio
    case Returned(respuesta) => DeterminarRespuestaHttp(respuesta)
    case Raised(e) =>
      HttpResponse(HttpInternalServerError, CrearRespuestaError(Some(prefijo + AsText(GetMessage(e))), codigo))
  }

  /** The `/debito-tarjeta` endpoint. */
  function ProcesarDebitoTarjeta(servicio: ServiceOutcome): (h: HttpResponse)
    ensures servicio.Raised? ==>
      h == HttpResponse(HttpInternalServerError,
                        CrearRespuestaError(Some(PrefijoFalloDebito + AsText(GetMessage(servicio.fault))), CodigoFalloDebito))
    ensures servicio.Returned? ==> h == DeterminarRespuestaHttp(servicio.response)
  {
    ProcesarUnaPierna(servicio, PrefijoFalloDebito, CodigoFalloDebito)
  }

  /** The `/credito-comercio` endpoint. */
  function ProcesarCreditoComercio(servicio: ServiceOutcome): (h: HttpResponse)
    ensures servicio.Raised? ==>
      h == HttpResponse(HttpInternalServerError,
                        CrearRespuestaError(Some(PrefijoFalloCredito + AsText(GetMessage(servicio.fault))), CodigoFalloCredito))
    ensures servicio.Returned? ==> h == DeterminarRespuestaHttp(servicio.response)
  {
    ProcesarUnaPierna(servicio, PrefijoFalloCredito, CodigoFalloCredito)
  }
}

=== FILE: procesar_core_service.dfy ===
/** The two-leg orchestrator: debit the card, then credit the merchant, and
    fold both remote answers (or the exceptions thrown instead) into one
    transaction result. The Feign client is an oracle: each leg's outcome is
    an input, and the result records which legs were actually invoked. */
module ProcesarCoreService {
  import opened Common
  import opened Dto
  import opened CoreExceptions

  /** What one client call yields: an exception (including the one raised by
      dereferencing a null ResponseEntity), a response without body, or a body. */
  datatype LegOutcome =
    | Threw(message: Option<string>)
    | NullBody
    | Body(body: CoreResponseDto)

  /** A remote call the orchestrator made, with the request it sent. */
  datatype CoreCall =
    | DebitoTarjeta(tarjeta: TarjetaRequest)
    | CreditoComercio(comercio: ComercioRequest)

  const Aprobado := "APROBADO"
  const Rechazado := "RECHAZADO"
  const MensajeExito := "Transacción procesada correctamente"
  const PrefijoError := "Error en procesamiento: "
  const PrefijoFalloTarjeta := "Error al procesar débito a tarjeta: "
  const PrefijoFalloCuenta := "Error al procesar crédito a cuenta de comercio: "
  const SinRespuesta := "No se recibió respuesta del core bancario para "
  const PrefijoRechazo := "Transacción rechazada por el core para "
  const Tarjeta := "tarjeta"
  const Cuenta := "cuenta"
  const TipoPorDefecto := "COM"
  const MonedaPorDefecto := "USD"
  const PaisPorDefecto := "EC"

  /** The leg returned a body whose `estado` is exactly "APROBADO". */
  predicate Approves(leg: LegOutcome)
  {
    leg.Body? && leg.body.estado == Some(Aprobado)
  }

  function OrDefault(s: Option<string>, default: string): (r: string)
    ensures s.Some? ==> r == s.value
    ensures s.None? ==> r == default
  {
    if s.Some? then s.value else default
  }

  /** Builds the card-debit request from the inbound transaction. */
  function ConvertirATarjetaRequest(t: TransaccionCore): (r: TarjetaRequest)
    ensures t.tipo.Some? ==> r.tipo == t.tipo.value
    ensures t.tipo.None? ==> r.tipo == TipoPorDefecto
    ensures t.codigoMoneda.Some? ==> r.moneda == t.codigoMoneda.value
    ensures t.codigoMoneda.None? ==> r.moneda == MonedaPorDefecto
    ensures t.pais.Some? ==> r.pais == t.pais.value
    ensures t.pais.None? ==> r.pais == PaisPorDefecto
    ensures r.diferido <==> t.diferido.Some? && t.diferido.value > 0
    ensures t.cuotas.Some? ==> r.cuotas == t.cuotas.value
    ensures t.cuotas.None? ==> r.cuotas == 1
    ensures r.monto == t.monto && r.swift == t.swiftBancoTarjeta
    ensures r.numeroTarjeta == t.numeroTarjeta && r.codigoUnicoTransaccion == t.codigoUnico
    ensures r.referencia == t.referencia && r.transaccionEncriptada == t.transaccionEncriptada
  {
    TarjetaRequest(
      tipo := OrDefault(t.tipo, TipoPorDefecto),
      monto := t.monto,
      moneda := OrDefault(t.codigoMoneda, MonedaPorDefecto),
      pais := OrDefault(t.pais, PaisPorDefecto),
      swift := t.swiftBancoTarjeta,
      numeroTarjeta := t.numeroTarjeta,
      codigoUnicoTransaccion := t.codigoUnico,
      referencia := t.referencia,
      transaccionEncriptada := t.transaccionEncriptada,
      diferido := t.diferido.Some? && t.diferido.value > 0,
      cuotas := if t.cuotas.Some? then t.cuotas.value else 1)
  }

  /** Builds the merchant-credit request from the inbound transaction. */
  function ConvertirAComercioRequest(t: TransaccionCore): (r: ComercioRequest)
    ensures t.tipo.Some? ==> r.tipo == t.tipo.value
    ensures t.tipo.None? ==> r.tipo == TipoPorDefecto
    ensures r.iban == t.cuentaIbanComercio && r.swift == t.swiftBancoComercio
    ensures r.codigoUnico == t.codigoUnico && r.monto == t.monto && r.referencia == t.referencia
  {
    ComercioRequest(
      iban := t.cuentaIbanComercio,
      swift := t.swiftBancoComercio,
      tipo := OrDefault(t.tipo, TipoPorDefecto),
      codigoUnico := t.codigoUnico,
      monto := t.monto,
      referencia := t.referencia)
  }

  /** The two requests describe the same transaction: same type, amount,
      unique code and reference. */
  lemma TranslatorsAgree(t: TransaccionCore)
    ensures ConvertirATarjetaRequest(t).tipo == ConvertirAComercioRequest(t).tipo
    ensures ConvertirATarjetaRequest(t).monto == ConvertirAComercioRequest(t).monto
    ensures ConvertirATarjetaRequest(t).codigoUnicoTransaccion == ConvertirAComercioRequest(t).codigoUnico
    ensures ConvertirATarjetaRequest(t).referencia == ConvertirAComercioRequest(t).referencia
  {
  }

  /** Calls one leg of the client: a thrown exception is rethrown as a
      CoreProcessingException whose message carries the leg's prefix. */
  function InvocarCore(outcome: LegOutcome, prefijoFallo: string): (r: Result<Option<CoreResponseDto>, Fault>)
    ensures outcome.Threw? <==> r.Failure?
    ensures outcome.Threw? ==>
      r.error == NewCoreProcessing(Some(prefijoFallo + AsText(outcome.message)))
    ensures outcome.NullBody? ==> r == Success(None)
    ensures outcome.Body? ==> r == Success(Some(outcome.body))
  {
    match outcome
    case Threw(m) => Failure(NewCoreProcessing(Some(prefijoFallo + AsText(m))))
    case NullBody => Success(None)
    case Body(b) => Success(Some(b))
  }

  /** `procesarTransaccionTarjeta`: the debit call; a thrown exception is
      rethrown with the debit prefix. */
  function ProcesarTransaccionTarjeta(outcome: LegOutcome): (r: Result<Option<CoreResponseDto>, Fault>)
    ensures outcome.Threw? <==> r.Failure?
    ensures outcome.Threw? ==>
      r.error == NewCoreProcessing(Some("Error al procesar débito a tarjeta: " + AsText(outcome.message)))
    ensures outcome.NullBody? ==> r == Success(None)
    ensures outcome.Body? ==> r == Success(Some(outcome.body))
  {
    InvocarCore(outcome, PrefijoFalloTarjeta)
  }

  /** `procesarTransaccionCuenta`: the credit call; a thrown exception is
      rethrown with the credit prefix. */
  function ProcesarTransaccionCuenta(outcome: LegOutcome): (r: Result<Option<CoreResponseDto>, Fault>)
    ensures outcome.Threw? <==> r.Failure?
    ensures outcome.Threw? ==>
      r.error == NewCoreProcessing(Some("Error al procesar crédito a cuenta de comercio: " + AsText(outcome.message)))
    ensures outcome.NullBody? ==> r == Success(None)
    ensures outcome.Body? ==> r == Success(Some(outcome.body))
  {
    InvocarCore(outcome, PrefijoFalloCuenta)
  }

  /** Accepts a response only if it has a body whose `estado` is exactly
      "APROBADO"; otherwise yields the CoreProcessingException thrown. */
  function ValidarRespuestaCore(respuesta: Option<CoreResponseDto>, tipo: string): (r: Option<Fault>)
    ensures r.None? <==> respuesta.Some? && respuesta.value.estado == Some(Aprobado)
    ensures respuesta.None? ==> r == Some(NewCoreProcessing(Some(SinRespuesta + tipo)))
    ensures respuesta.Some? && r.Some? ==>
      r == Some(NewCoreProcessing(Some(PrefijoRechazo + tipo + ": " + AsText(respuesta.value.mensaje))))
  {
    if respuesta.None? then
      Some(NewCoreProcessing(Some(SinRespuesta + tipo)))
    else if respuesta.value.estado != Some(Aprobado) then
      Some(NewCoreProcessing(Some(PrefijoRechazo + tipo + ": " + AsText(respuesta.value.mensaje))))
    else
      None
  }

  /** One leg's answer, validated: the exception the leg ends in, if any. */
  function Leg(llamada: Result<Option<CoreResponseDto>, Fault>, tipo: string): (r: Option<Fault>)
    ensures r.None? <==> llamada.Success? && llamada.value.Some? && llamada.value.value.estado == Some(Aprobado)
    ensures llamada.Failure? ==> r == Some(llamada.error)
  {
    match llamada
    case Failure(e) => Some(e)
    case Success(respuesta) => ValidarRespuestaCore(respuesta, tipo)
  }

  /** The message a leg that did not approve ends in. */
  function LegFailureMessage(outcome: LegOutcome, prefijoFallo: string, tipo: string): string
  {
    match outcome
    case Threw(m) => prefijoFallo + AsText(m)
    case NullBody => SinRespuesta + tipo
    case Body(b) => PrefijoRechazo + tipo + ": " + AsText(b.mensaje)
  }

  function Aprobacion(t: TransaccionCore): TransaccionCoreResponse
  {
    EmptyResponse.(codigoUnico := t.codigoUnico, estado := Some(Aprobado), mensaje := Some(MensajeExito))
  }

  function Rechazo(t: TransaccionCore, e: Fault): TransaccionCoreResponse
  {
    EmptyResponse.(codigoUnico := t.codigoUnico, estado := Some(Rechazado),
                   mensaje := Some(PrefijoError + AsText(GetMessage(e))))
  }

  /** `procesarTransaccion`: the result and the remote calls made, in order. */
  function ProcesarTransaccion(t: TransaccionCore, debito: LegOutcome, credito: LegOutcome)
    : (res: (TransaccionCoreResponse, seq<CoreCall>))
    ensures 1 <= |res.1| <= 2
    ensures res.1[0] == DebitoTarjeta(ConvertirATarjetaRequest(t))
    ensures |res.1| == 2 <==> Approves(debito)
    ensures |res.1| == 2 ==> res.1[1] == CreditoComercio(ConvertirAComercioRequest(t))
    ensures res.0.estado == Some(Aprobado) <==> Approves(debito) && Approves(credito)
    ensures res.0.estado == Some(Aprobado) || res.0.estado == Some(Rechazado)
    ensures res.0.codigoUnico == t.codigoUnico
    ensures res.0.codigoRespuesta.None? && res.0.swiftBanco.None?
    ensures Approves(debito) && Approves(credito) ==> res.0.mensaje == Some(MensajeExito)
    ensures !Approves(debito) ==>
      res.0.mensaje == Some(PrefijoError + LegFailureMessage(debito, PrefijoFalloTarjeta, Tarjeta))
    ensures Approves(debito) && !Approves(credito) ==>
      res.0.mensaje == Some(PrefijoError + LegFailureMessage(credito, PrefijoFalloCuenta, Cuenta))
  {
    var llamadaDebito := DebitoTarjeta(ConvertirATarjetaRequest(t));
    match Leg(ProcesarTransaccionTarjeta(debito), Tarjeta)
    case Some(e) => (Rechazo(t, e), [llamadaDebito])
    case None =>
      var llamadas := [llamadaDebito, CreditoComercio(ConvertirAComercioRequest(t))];
      match Leg(ProcesarTransaccionCuenta(credito), Cuenta)
      case Some(e) => (Rechazo(t, e), llamadas)
      case None => (Aprobacion(t), llamadas)
  }

  /** A debit the core answered with a non-approving body: the result says
      so and quotes the core's own message. */
  lemma DebitRejectionQuotesCore(t: TransaccionCore, debito: LegOutcome, credito: LegOutcome)
    requires debito.Body? && !Approves(debito)
    ensures var r := ProcesarTransaccion(t, debito, credito).0;
      && r.estado == Some("RECHAZADO")
      && r.mensaje == Some("Error en procesamiento: " + "Transacción rechazada por el core para " + "tarjeta" + ": "
                           + AsText(debito.body.mensaje))
      && Contains(r.mensaje.value, AsText(debito.body.mensaje))
  {
    var pre := "Error en procesamiento: " + "Transacción rechazada por el core para " + "tarjeta" + ": ";
    var m := AsText(debito.body.mensaje);
    assert PrefijoError + (PrefijoRechazo + Tarjeta + ": " + m) == pre + m;
    ContainsSuffix(pre, m);
  }

  /** A credit the core answered with a non-approving body, after an
      approved debit: the result quotes the core's message for "cuenta". */
  lemma CreditRejectionQuotesCore(t: TransaccionCore, debito: LegOutcome, credito: LegOutcome)
    requires Approves(debito) && credito.Body? && !Approves(credito)
    ensures var r := ProcesarTransaccion(t, debito, credito).0;
      && r.estado == Some("RECHAZADO")
      && r.mensaje == Some("Error en procesamiento: " + "Transacción rechazada por el core para " + "cuenta" + ": "
                           + AsText(credito.body.mensaje))
      && Contains(r.mensaje.value, AsText(credito.body.mensaje))
  {
    var pre := "Error en procesamiento: " + "Transacción rechazada por el core para " + "cuenta" + ": ";
    var m := AsText(credito.body.mensaje);
    assert PrefijoError + (PrefijoRechazo + Cuenta + ": " + m) == pre + m;
    ContainsSuffix(pre, m);
  }

  /** A client exception on the leg that ends the run is wrapped twice, and
      its message survives inside the result's message. */
  lemma ClientExceptionQuoted(t: TransaccionCore, debito: LegOutcome, credito: LegOutcome)
    requires debito.Threw? || (Approves(debito) && credito.Threw?)
    ensures var r := ProcesarTransaccion(t, debito, credito).0;
      && r.estado == Some("RECHAZADO")
      && (debito.Threw? ==>
           r.mensaje == Some("Error en procesamiento: " + "Error al procesar débito a tarjeta: " + AsText(debito.message)))
      && (credito.Threw? && !debito.Threw? ==>
           r.mensaje == Some("Error en procesamiento: " + "Error al procesar crédito a cuenta de comercio: "
                             + AsText(credito.message)))
      && Contains(r.mensaje.value, AsText(if debito.Threw? then debito.message else credito.message))
  {
    if debito.Threw? {
      var pre := "Error en procesamiento: " + "Error al procesar débito a tarjeta: ";
      var m := AsText(debito.message);
      assert PrefijoError + (PrefijoFalloTarjeta + m) == pre + m;
      ContainsSuffix(pre, m);
    } else {
      var pre := "Error en procesamiento: " + "Error al procesar crédito a cuenta de comercio: ";
      var m := AsText(credito.message);
      assert PrefijoError + (PrefijoFalloCuenta + m) == pre + m;
      ContainsSuffix(pre, m);
    }
  }

  /** A response without body names the leg that lacked it. */
  lemma NullBodyNamesLeg(t: TransaccionCore, debito: LegOutcome, credito: LegOutcome)
    requires debito.NullBody? || (Approves(debito) && credito.NullBody?)
    ensures var r := ProcesarTransaccion(t, debito, credito).0;
      && r.estado == Some("RECHAZADO")
      && (debito.NullBody? ==>
           r.mensaje == Some("Error en procesamiento: " + ("No se recibió respuesta del core bancario para " + "tarjeta")))
      && (credito.NullBody? && !debito.NullBody? ==>
           r.mensaje == Some("Error en procesamiento: " + ("No se recibió respuesta del core bancario para " + "cuenta")))
  {
  }

  /** The approval check is exact: a body saying "APROBADA" is a rejection. */
  lemma AprobadaIsRejected(t: TransaccionCore, body: CoreResponseDto, credito: LegOutcome)
    requires body.estado == Some("APROBADA")
    ensures ProcesarTransaccion(t, Body(body), credito).0.estado == Some("RECHAZADO")
    ensures |ProcesarTransaccion(t, Body(body), credito).1| == 1
  {
  }
}
